=== FILE: README.md ===
# Find-Baldo clicker: a Dafny model of its click, round and scene logic

This project models the core of a small game-jam clicker. The field is crowded with
decoy "Waldos", and the player must click Baldo before a 30-second countdown runs out.
Jam and marmelade jars add time, and every Waldo clicked costs time.

The model covers:

- **Entities** (`entities.dfy`, from `entity.py`). Each entity is placed by its top-left
  corner. Its hit rectangle comes from the scaled base image. A hit counts only for a mouse
  press and uses half-open containment. Each entity class reports a fixed outcome.
- **Widgets** (`widgets.dfy`, from `ui_elements.py`):
  - rectangle hit testing;
  - buttons, whose stored callback the click test never runs;
  - labels, whose `set_text` skips re-rendering when the text is unchanged;
  - the progress bar, whose `set_value` is a clamp, and its fill width.
- **The round** (`round.dfy`, from `BetterScene` in `scenes.py`):
  - random field generation;
  - first-hit click resolution: Baldo wins, jars add +10/+15 s and Waldos cost −5 s, and
    each jar or Waldo hit is removed;
  - the per-frame countdown that ends the round in a win or a loss.
- **The scene machine** (`scenes.dfy`, from `scenes.py`): the menu, instructions, credits, test, play, win and
  fail screens. Also the scene manager, which stops the old scene before it constructs and
  starts the new one, and which swallows failures raised during start.
- **Supporting modules:** `rects.dfy` (points, sizes, rectangles), `events.dfy` (input
  events), `numerals.dfy` (float-to-int truncation and decimal rendering for the time label),
  `outcomes.dfy` (Option/Result/Outcome) and `scenarios.dfy` (concrete rounds).

## How the model maps to the code

- **Handlers return requests.** The Python handlers call `change_scene` on the manager
  directly. In the model, a scene's event and frame handlers return a request: `Stay`,
  `SwitchTo(tag)` or `PostQuit`. The manager then carries out that request (`Apply`,
  `Deliver`, `Frame`). The two behave the same, because no handler touches its own scene
  after calling `change_scene`.
- **The manager keeps a lifecycle history.** It records stop/construct/start calls, so the
  order of the stop and construct calls can be stated. The invariant `History` plus
  `HistoryHasOneLiveScene` is the "exactly one active scene" property.
- **Images are a map.** Loading is a map `Texture -> Size`. A texture missing from the map
  raises `MissingAsset`. The typed `Texture` registry replaces path strings:
  - `Assets/baldo_01.png`, `jam.png`, `marmelade.png`;
  - `base_1..6.png` and `mask_1..9.png`.
- **Scaling is exact.** `scale_by` with the integer factor 2 doubles both dimensions exactly.
- **Randomness is an input.** The draws of `random.randint` and `random.choice` are inputs:
  `Rolls` and `Env.mockLine`. Their ranges are stated by `ValidRolls`, `ValidLook` and
  `ValidEnv`.
- **Rendered text is a size plus a serial number.** The text size is an input. Each
  re-render bumps a serial number, which stands for the identity of the cached surface.
- **Removal is by index.** `list.remove(entity)` is modelled as removal at the index of the
  first hit. The Python list holds distinct objects and `remove` compares by identity, so
  the two agree.

Behaviour of the code worth knowing:

- A button's click test never invokes its callback (`ui_elements.py:9-10`). The menu's play
  button stores a callback that would start the test scene, but the press handler switches
  to the play scene (`MenuButtonsReachable`).
- The instructions screen never returns to the menu (`scenes.py:430-432`, `LearnIsASink`).
- The fill width is `int(current / max * width)`, truncated toward zero (`ui_elements.py:105-107`,
  `FillWidth`).
- A frame subtracts `dt` from the time whenever the time is still positive, so the time can go
  below zero for one frame. The following frame then ends the round (`scenes.py:328-343`,
  `Update`).
- Return in the menu switches to the test scene (`scenes.py:115-121`).
- Quit and Escape only clear the main loop's running flag (`main.py:22-25`). The rest of that
  batch of events is still delivered and one more frame runs before the loop ends.

Behaviour of the code that the model makes visible:

- `win` is never reset within a round (`HandleEventKeepsWin`). A jar clicked after Baldo in
  the same frame puts time back on the clock, so the win screen comes only once that time
  runs out.
- A jar built with type `Baldo` would act as Baldo. The round generation only builds jam and
  marmelade jars.

## Model

| member | source | states |
|---|---|---|
| `Rects.CollidePointEdges` | entity.py:50 | the far right and bottom edges are outside a rectangle; its top-left corner is inside iff it has positive width and height |
| `Numerals.Trunc` | scenes.py:347 | converting the time to an int truncates toward zero: the result is within one of the input, on the side of zero |
| `Numerals.Str` | scenes.py:347 | decimal rendering is canonical: a leading '-' exactly for negative numbers, then digits with no leading zero, and "0" exactly for zero |
| `Numerals.StrRoundTrip` | scenes.py:347 | parsing the rendered label text gives back the integer |
| `Numerals.StrInjective` | scenes.py:347 | two integers render to the same label text iff they are equal |
| `Entities.Load` | entity.py:24-28 | an image loads iff its file is available, giving that file's size; otherwise loading raises for that file |
| `Entities.NewEntity` | entity.py:18-38 | construction succeeds iff the base image and any mask load; a missing base is reported before a missing mask; the rect's top-left is exactly (x, y) and its size is the base image scaled |
| `Entities.MaskDoesNotAffectHitRegion` | entity.py:31-38 | two entities that differ only in their mask have the same hit rectangle |
| `Entities.NewBaldo` | entity.py:58-60 | a Baldo loads the Baldo image at scale 2 with no mask |
| `Entities.RandomTextures` | entity.py:77-81 | a Waldo loads the base image and the mask image its two draws name; the ranges 1..6 and 1..9 are the draws' ranges, taken as an assumption |
| `Entities.NewWaldo` | entity.py:72-75 | a Waldo loads its random base and mask, and its hit rectangle is the scaled base only |
| `Entities.JarTexture` | entity.py:97-101 | a jar uses the jam image iff its type is Jam, and the marmelade image for every other type |
| `Entities.NewJar` | entity.py:93-103 | a jar keeps its type and its hit rectangle is its scaled texture placed at (x, y) |
| `Entities.EntityOnClick` | entity.py:48-51 | an event that is not a press never hits; a press hits iff x <= px < x+w and y <= py < y+h |
| `Entities.BaldoOnClick` | entity.py:62-65 | Baldo reports the Baldo outcome iff the base hit test succeeds, otherwise nothing |
| `Entities.WaldoOnClick` | entity.py:83-86 | Waldo reports the Waldo outcome iff the base hit test succeeds, otherwise nothing |
| `Entities.JarOnClick` | entity.py:105-108 | a jar reports exactly its stored type on a hit and nothing on a miss |
| `Entities.OnClick` | scenes.py:292 | dispatching to the entity's class yields an outcome iff the base hit test succeeds, and then the class's fixed outcome |
| `Widgets.ElementOnClick` | ui_elements.py:9-10 | a widget click is exactly half-open containment of the event position, for any event that has a position |
| `Widgets.ButtonOnClick` | ui_elements.py:66-71 | a button's click test is containment only; its stored callback plays no part |
| `Widgets.NewLabel` | ui_elements.py:25-36 | a label's width and height default to the rendered text's, and explicit values are used verbatim; its cache shows its text |
| `Widgets.SetText` | ui_elements.py:38-43 | the same text leaves the label, including its cached surface, unchanged; new text is stored and re-rendered into a different surface; the rect is never resized |
| `Widgets.SetTextIdempotent` | ui_elements.py:38-43 | setting the same text twice is the same as setting it once |
| `Widgets.NewProgressBar` | ui_elements.py:93-95 | a new bar starts full: current value equals the maximum |
| `Widgets.SetValue` | ui_elements.py:98-99 | the value is clamped: never negative, at most the maximum when that is non-negative, and in-range values are kept |
| `Widgets.SetValueIdempotent` | ui_elements.py:99 | setting the same value twice gives the same bar as once |
| `Widgets.SetValueFixesInRange` | ui_elements.py:99 | re-setting a bar to its own clamped value changes nothing |
| `Widgets.FillWidth` | ui_elements.py:104-109 | the fill is 0 when the maximum is not positive; otherwise it is `current / max * width` truncated toward zero (the largest whole number not above it, for a non-negative value), lies in [0, width] for a clamped value, is the full width for a full bar and 0 for an empty one |
| `Widgets.FillWidthMonotone` | ui_elements.py:104-109 | a larger value never gives a narrower fill |
| `PlayRound.NewRound` | scenes.py:235-256 | a constructed round has 30 s, no win and no entities; its bar is full at max 30 and its label reads "30" right of the bar |
| `PlayRound.Plan` | scenes.py:268-285 | generation makes one construction per drawn position, in draw order, with valid Waldo looks |
| `PlayRound.Build` | scenes.py:270-285 | each construction yields an entity of the planned kind at the planned position |
| `PlayRound.BuildAll` | scenes.py:268-285 | generation builds entities in order and stops at the first load error, which is raised; the entities built so far stay |
| `PlayRound.Start` | scenes.py:258-261 | starting resets the time to 30 s and replaces the entity list with the generated one; it completes iff every entity was built |
| `PlayRound.StartGeneratesField` | scenes.py:263-285 | with every image available, generation completes and the field holds the drawn number of Waldos, then exactly 5 jam jars, one marmelade jar and Baldo last, each at its drawn position; the ranges 120..1800 and x in 0..950, y in 3..539 are the draws' ranges, taken as an assumption |
| `PlayRound.WellGeneratedHasOneBaldo` | scenes.py:283-285 | a generated field holds exactly one Baldo, the last entity |
| `PlayRound.FirstHit` | scenes.py:291-295 | the scan finds the first entity in list order reporting a hit, or reports none when no entity is hit |
| `PlayRound.FirstHitUnique` | scenes.py:291-295 | the scan's answer is the unique first hit |
| `PlayRound.RemoveAt` | scenes.py:306 | removing one entity keeps all others in order and takes exactly that entity out of the multiset |
| `PlayRound.HandleEvent` | scenes.py:287-321 | non-press events leave the round unchanged; no event touches the countdown display or grows the entity list |
| `PlayRound.HandleMiss` | scenes.py:321 | a press that hits nothing sets the hint message and changes nothing else |
| `PlayRound.HandleBaldoHit` | scenes.py:297-301 | a first hit on Baldo sets the time to exactly 0 and the win flag, and leaves the entity list unchanged |
| `PlayRound.HandleConsumableHit` | scenes.py:303-319 | a first hit on a jam jar, marmelade jar or Waldo changes the time by +10/+15/−5 and removes exactly that entity |
| `PlayRound.OnlyPrefixMatters` | scenes.py:291-319 | entities after the first hit cannot change which entity's outcome is applied |
| `PlayRound.HandleEventKeepsBaldos` | scenes.py:297-319 | clicks never change the number of Baldo entities |
| `PlayRound.HandleEventKeepsWin` | scenes.py:297-319 | the win flag, once set, stays set; a round that was not won becomes won only by a press whose first hit is Baldo, and then the time is 0 |
| `PlayRound.Update` | scenes.py:328-347 | with time <= 0 the frame ends the round, as a win iff the flag is set, and leaves the state unchanged; otherwise time drops by exactly dt and the bar and label show the new time |
| `PlayRound.Countdown` | scenes.py:345 | if the time was positive before each of n frames, the round is still running after them with exactly the elapsed time taken off |
| `PlayRound.ElapsedIsProduct` | scenes.py:345 | the time n frames of dt take off the clock is exactly n * dt |
| `PlayRound.BaldoHitWinsNextFrame` | scenes.py:297-343 | after a Baldo hit the next frame ends the round in a win |
| `PlayRound.TimeoutLoses` | scenes.py:328-336 | time used up without the win flag ends the round in a loss without touching the time |
| `Scenes.NewMenu` | scenes.py:82-91 | the four menu buttons share a column and a 320x60 size, each 72 px below the previous one |
| `Scenes.ResultButtons` | scenes.py:482-502 | the win/fail buttons are 300x60, the menu button 75 px below the play-again button, with their stored callbacks |
| `Scenes.Construct` | scenes.py:45-47 | a new scene is running and of the requested kind; a play scene starts from a fresh round |
| `Scenes.Start` | scenes.py:258-261 | only the play scene's start does anything: it generates the field |
| `Scenes.Stop` | scenes.py:53-55 | stopping clears the running flag and nothing else |
| `Scenes.ChangeScene` | scenes.py:18-35 | the old scene, if any, is retired stopped; the new current scene is running and of the requested kind, whatever its start raised; the history gains, in order, the old scene's stop (if there was one), then the new scene's construction and start |
| `Scenes.HistoryHasOneLiveScene` | scenes.py:7-11 | in any lifecycle history of the manager, exactly one constructed scene has not been stopped |
| `Scenes.ChangeScenePreservesInvariant` | scenes.py:18-35 | each switch keeps the manager's invariant, leaves exactly one live scene, and extends the old history by the old scene's stop before the new one is constructed and started |
| `Scenes.NewManager` | scenes.py:13-16 | the manager starts with the initial scene constructed and started, and nothing else |
| `Scenes.MenuHandleEvent` | scenes.py:114-146 | Return leads to the test scene; a press checks play, how-to-play, credits and quit in that order, the first containing button decides, at most one request per event |
| `Scenes.ResultHandleEvent` | scenes.py:512-517 | a press on the first button plays again, otherwise a press on the second goes to the menu, anything else stays |
| `Scenes.CreditsHandleEvent` | scenes.py:377-382 | any key or press returns to the menu, nothing else does |
| `Scenes.HandleEvent` | scenes.py:57-59 | event dispatch keeps the scene's kind and running flag; only the play scene changes state, and it never requests a switch |
| `Scenes.Update` | scenes.py:324-345 | only the play scene's frame does anything; it requests the win or fail screen once the time is used up |
| `Scenes.Deliver` | main.py:21-28 | a quit request or Escape clears the loop's running flag and never reaches the scene; any other event goes to the active scene: a play round handles the click in place, a requested switch makes the target scene active after stopping the old one, and a quit is reported exactly when the scene posted one |
| `Scenes.Frame` | main.py:30-31 | a frame changes nothing without an active scene or for a screen other than play; a play round out of time switches to the win or fail screen by its win flag, stopping the round first; a running round is replaced by its own frame update (time down by `dt`, bar and label showing the new time) and nothing else about the manager or the scene changes |
| `Scenes.RequestsFollowEdges` | scenes.py:114-601 | every switch an event or frame requests is an edge of the scene machine |
| `Scenes.StepsKeepInvariant` | scenes.py:18-35 | delivering events and running frames keep the manager invariant and move only along edges |
| `Scenes.MenuButtonsDisjoint` | scenes.py:83-91 | no point lies in two menu buttons |
| `Scenes.MenuButtonsReachable` | scenes.py:88-146 | a press on each menu button makes that button's request, and the play button's request differs from its stored callback |
| `Scenes.ResultButtonsReachable` | scenes.py:486-517 | a press on each win/fail button makes that button's request |
| `Scenes.EdgesAreRealised` | scenes.py:114-601 | every edge of the scene machine is taken by some event or frame |
| `Scenes.LearnIsASink` | scenes.py:430-432 | the instructions screen never requests a switch |
| `Scenarios.LoneBaldo` | scenes.py:297-343 | with Baldo alone at (300, 300) 64x64, a press at (332, 332) wins and the next frame ends in a win; a press at (0, 0) changes neither time nor entities |
| `Scenarios.JamPickup` | scenes.py:303-307 | a jam jar picked up at 5 s brings the time to 15 s and is removed, so a second press there hits nothing |

## Left out

- Drawing, fonts, colours, text centring and image decoding are library calls. Only the
  sizes they produce enter the model, as inputs.
- Audio playback in the round's frame is left out. This includes the cue at 67..69 s, which
  replays on every frame in that band, and the win and fail sounds. They are fire-and-forget
  calls whose results are never used.
- The main loop's clock pacing, event-queue draining and program exit are library I/O.
  Only the handling of one event (`Deliver`, with its quit and Escape filter) and of one
  frame (`Frame`) are modelled. The loop's running flag is reported as `ClearRunning` by
  `Deliver`; the rest of the batch and the frame after it are not composed into a loop.
- Randomness is not modelled. Its draws are inputs constrained to the ranges the code draws
  from. The fail screen's mocking line is kept only as its index.
- Time and progress values are reals, so floating-point rounding is not modelled.
- The test scene is only a state of the machine. Its handlers are not modelled, because its
  `update` reads a label it never creates (`scenes.py:224`), so the game cannot continue
  there.
- The start scene is never constructed by any code path, and its `match` can never fire.
- The instructions scene's construction loads images. That loading, and a constructor
  raising inside `change_scene` (which is not caught there), are left out. No other modelled
  scene loads anything in its constructor.
- The scene's running flag is kept but nothing reads it, as in the code.

=== FILE: entities.dfy ===
/**
 * Clickable field entities: placement of their hit rectangle, the press-only hit test
 * and the fixed outcome each entity class reports.
 */
module Entities {
  import opened Outcomes
  import opened Rects
  import opened Events

  /** The four click outcomes an entity can report. */
  datatype EntityType = Baldo | Waldo | Jam | Marmelade

  /** The image files the entity classes load, as a typed registry instead of path strings. */
  datatype Texture =
    | BaldoImage              // Assets/baldo_01.png
    | WaldoBase(index: int)   // Assets/base_<index>.png
    | WaldoMask(index: int)   // Assets/mask_<index>.png
    | JamImage                // Assets/jam.png
    | MarmeladeImage          // Assets/marmelade.png

  /** The sizes of the images that can be loaded; a texture outside the map fails to load. */
  type Assets = map<Texture, Size>

  datatype LoadError = MissingAsset(texture: Texture)

  /** Which entity class an object belongs to; a jar carries the outcome it was built with. */
  datatype Kind = BaldoKind | WaldoKind | JarKind(jarType: EntityType)

  /** The scale factor every entity class uses by default. */
  const DefaultScale: nat := 2

  datatype Entity = Entity(
    kind: Kind,
    x: int,
    y: int,
    scale: nat,
    base: Texture,
    mask: Option<Texture>,
    rect: Rect)

  /** Loading an image: its size, or the error raised for a missing file. */
  function Load(assets: Assets, t: Texture): (r: Result<Size, LoadError>)
    ensures r.Ok? <==> t in assets
    ensures r.Ok? ==> r.value == assets[t]
    ensures r.Err? ==> r.error == MissingAsset(t)
  {
    if t in assets then Ok(assets[t]) else Err(MissingAsset(t))
  }

  /** Scaling a surface by an integer factor multiplies both of its dimensions. */
  function ScaleBy(s: Size, factor: nat): Size {
    Size(s.width * factor, s.height * factor)
  }

  /**
   * Building an entity: the base image, then the optional mask, are loaded (a missing one
   * raises); the hit rectangle is the scaled base image placed with its top-left at (x, y).
   */
  function NewEntity(kind: Kind, x: int, y: int, base: Texture, mask: Option<Texture>, scale: nat, assets: Assets)
    : (r: Result<Entity, LoadError>)
    ensures r.Ok? <==> base in assets && (mask.Some? ==> mask.value in assets)
    ensures base !in assets ==> r == Err(MissingAsset(base))
    ensures base in assets && mask.Some? && mask.value !in assets ==> r == Err(MissingAsset(mask.value))
    ensures r.Ok? ==> r.value.rect.TopLeft() == Point(x, y)
    ensures r.Ok? ==> r.value.rect.Dimensions() == ScaleBy(assets[base], scale)
    ensures r.Ok? ==> r.value.kind == kind && r.value.base == base && r.value.mask == mask
  {
    match Load(assets, base)
    case Err(e) => Err(e)
    case Ok(baseSize) =>
      var maskLoaded :=
        match mask
        case None => Completed
        case Some(m) => (match Load(assets, m) case Ok(_) => Completed case Err(e) => Raised(e));
      match maskLoaded
      case Raised(e) => Err(e)
      case Completed =>
        Ok(Entity(kind, x, y, scale, base, mask, PlacedAt(Point(x, y), ScaleBy(baseSize, scale))))
  }

  /** The mask is decoration only: entities differing only in their mask have the same hit rectangle. */
  lemma MaskDoesNotAffectHitRegion(
    kind: Kind, x: int, y: int, base: Texture, m1: Option<Texture>, m2: Option<Texture>, scale: nat, assets: Assets)
    requires NewEntity(kind, x, y, base, m1, scale, assets).Ok?
    requires NewEntity(kind, x, y, base, m2, scale, assets).Ok?
    ensures NewEntity(kind, x, y, base, m1, scale, assets).value.rect
         == NewEntity(kind, x, y, base, m2, scale, assets).value.rect
  {
  }

  /** A Baldo: the winning entity, drawn from the Baldo image with no mask. */
  function NewBaldo(x: int, y: int, assets: Assets): (r: Result<Entity, LoadError>)
    ensures r.Ok? <==> BaldoImage in assets
    ensures r.Ok? ==> r.value.kind == BaldoKind && r.value.mask == None
    ensures r.Ok? ==> r.value.rect == PlacedAt(Point(x, y), ScaleBy(assets[BaldoImage], DefaultScale))
  {
    NewEntity(BaldoKind, x, y, BaldoImage, None, DefaultScale, assets)
  }

  /** The random appearance of a Waldo: a base image index and a mask image index. */
  datatype Look = Look(baseIndex: int, maskIndex: int)

  /** The ranges the two random draws come from. */
  predicate ValidLook(l: Look) {
    1 <= l.baseIndex <= 6 && 1 <= l.maskIndex <= 9
  }

  /**
   * The base and mask textures a Waldo with look `l` loads. The index ranges 1..6 and 1..9 are
   * assumptions about the random draws (`ValidLook`), not results of this function.
   */
  function RandomTextures(l: Look): (r: (Texture, Texture))
    requires ValidLook(l)
    ensures r.0.WaldoBase? && 1 <= r.0.index <= 6
    ensures r.1.WaldoMask? && 1 <= r.1.index <= 9
    ensures r.0.index == l.baseIndex && r.1.index == l.maskIndex
  {
    (WaldoBase(l.baseIndex), WaldoMask(l.maskIndex))
  }

  /** A Waldo: a decoy with a random base image and a random mask on top. */
  function NewWaldo(x: int, y: int, l: Look, assets: Assets): (r: Result<Entity, LoadError>)
    requires ValidLook(l)
    ensures r.Ok? <==> WaldoBase(l.baseIndex) in assets && WaldoMask(l.maskIndex) in assets
    ensures r.Ok? ==> r.value.kind == WaldoKind && r.value.mask.Some?
    ensures r.Ok? ==> r.value.rect == PlacedAt(Point(x, y), ScaleBy(assets[WaldoBase(l.baseIndex)], DefaultScale))
  {
    var (base, mask) := RandomTextures(l);
    NewEntity(WaldoKind, x, y, base, Some(mask), DefaultScale, assets)
  }

  /** The image a jar of a given type is drawn with. */
  function JarTexture(jarType: EntityType): (t: Texture)
    ensures t == JamImage <==> jarType == Jam
    ensures t == JamImage || t == MarmeladeImage
  {
    if jarType == Jam then JamImage else MarmeladeImage
  }

  /** A jar: a pickup that reports the type it was built with. */
  function NewJar(x: int, y: int, jarType: EntityType, assets: Assets): (r: Result<Entity, LoadError>)
    ensures r.Ok? <==> JarTexture(jarType) in assets
    ensures r.Ok? ==> r.value.kind == JarKind(jarType) && r.value.mask == None
    ensures r.Ok? ==> r.value.rect == PlacedAt(Point(x, y), ScaleBy(assets[JarTexture(jarType)], DefaultScale))
  {
    NewEntity(JarKind(jarType), x, y, JarTexture(jarType), None, DefaultScale, assets)
  }

  /** The base hit test: only a mouse press inside the half-open hit rectangle hits. */
  function EntityOnClick(e: Entity, ev: Event): (hit: bool)
    ensures !ev.MouseDown? ==> !hit
    ensures ev.MouseDown? ==>
      (hit <==> e.rect.x <= ev.pos.x < e.rect.x + e.rect.width && e.rect.y <= ev.pos.y < e.rect.y + e.rect.height)
  {
    if ev.MouseDown? then CollidePoint(e.rect, ev.pos) else false
  }

  /** Baldo's click handler: the Baldo outcome on a hit, nothing otherwise. */
  function BaldoOnClick(e: Entity, ev: Event): (r: Option<EntityType>)
    ensures r == Some(Baldo) <==> EntityOnClick(e, ev)
    ensures r == None <==> !EntityOnClick(e, ev)
  {
    if EntityOnClick(e, ev) then Some(Baldo) else None
  }

  /** Waldo's click handler: the Waldo outcome on a hit, nothing otherwise. */
  function WaldoOnClick(e: Entity, ev: Event): (r: Option<EntityType>)
    ensures r == Some(Waldo) <==> EntityOnClick(e, ev)
    ensures r == None <==> !EntityOnClick(e, ev)
  {
    if EntityOnClick(e, ev) then Some(Waldo) else None
  }

  /** A jar's click handler: its own stored type on a hit, nothing otherwise. */
  function JarOnClick(e: Entity, ev: Event): (r: Option<EntityType>)
    requires e.kind.JarKind?
    ensures r == Some(e.kind.jarType) <==> EntityOnClick(e, ev)
    ensures r == None <==> !EntityOnClick(e, ev)
  {
    if EntityOnClick(e, ev) then Some(e.kind.jarType) else None
  }

  /** The outcome an entity of kind `k` always reports when hit. */
  function FixedOutcome(k: Kind): EntityType {
    match k
    case BaldoKind => Baldo
    case WaldoKind => Waldo
    case JarKind(t) => t
  }

  /** Dispatch of `on_click` to the entity's class. */
  function OnClick(e: Entity, ev: Event): (r: Option<EntityType>)
    ensures r.Some? <==> EntityOnClick(e, ev)
    ensures r.Some? ==> r.value == FixedOutcome(e.kind)
  {
    match e.kind
    case BaldoKind => BaldoOnClick(e, ev)
    case WaldoKind => WaldoOnClick(e, ev)
    case JarKind(_) => JarOnClick(e, ev)
  }
}

=== FILE: events.dfy ===
/** Input events delivered by the graphics library's event queue. */
module Events {
  import opened Rects

  /** Key code of the Return key. */
  const ReturnKey: int := 13

  /** Key code of the Escape key. */
  const EscapeKey: int := 27

  datatype Event =
    | MouseDown(pos: Point)
    | MouseUp(pos: Point)
    | MouseMotion(pos: Point)
    | KeyDown(key: int)
    | QuitRequest
    | OtherEvent
  {
    /** Whether the event carries a mouse position. */
    predicate HasPos() {
      MouseDown? || MouseUp? || MouseMotion?
    }
  }
}

=== FILE: numerals.dfy ===
/** Conversions the time label relies on: truncation of a real to an integer and decimal rendering. */
module Numerals {

  /** Truncation toward zero, the behaviour of converting a float to an int. */
  function Trunc(r: real): (n: int)
    ensures r >= 0.0 ==> n as real <= r < n as real + 1.0
    ensures r < 0.0 ==> n as real - 1.0 < r <= n as real
  {
    if r >= 0.0 then r.Floor else -((-r).Floor)
  }

  predicate IsDigit(c: char) {
    '0' <= c <= '9'
  }

  predicate AllDigits(s: string) {
    forall i :: 0 <= i < |s| ==> IsDigit(s[i])
  }

  function DigitChar(d: int): (c: char)
    requires 0 <= d < 10
    ensures IsDigit(c) && c as int - '0' as int == d
  {
    ('0' as int + d) as char
  }

  /** The decimal digits of a natural number, most significant first, without leading zeros. */
  function Digits(n: nat): (s: string)
    ensures |s| >= 1 && AllDigits(s)
    ensures |s| > 1 ==> s[0] != '0'
    ensures s[0] == '0' <==> n == 0
    decreases n
  {
    if n < 10 then [DigitChar(n)] else Digits(n / 10) + [DigitChar(n % 10)]
  }

  /**
   * Decimal rendering of an integer in its canonical form: a leading '-' for negatives, then
   * the digits with no leading zero, so zero is the single digit "0".
   */
  function Str(n: int): (s: string)
    ensures |s| >= 1
    ensures n < 0 <==> s[0] == '-'
    ensures n >= 0 ==> AllDigits(s)
    ensures n >= 0 && |s| > 1 ==> s[0] != '0'
    ensures s == "0" <==> n == 0
    ensures n < 0 ==> |s| >= 2 && s[1] != '0' && AllDigits(s[1..])
  {
    if n < 0 then "-" + Digits(-n) else Digits(n)
  }

  /** The value of a string of decimal digits. */
  function ParseDigits(s: string): nat
    requires AllDigits(s)
    decreases |s|
  {
    if |s| == 0 then 0
    else 10 * ParseDigits(s[..|s| - 1]) + (s[|s| - 1] as int - '0' as int)
  }

  /** The value of an optionally signed decimal numeral. */
  function ParseInt(s: string): int
    requires |s| >= 1
    requires s[0] == '-' ==> AllDigits(s[1..])
    requires s[0] != '-' ==> AllDigits(s)
  {
    if s[0] == '-' then -(ParseDigits(s[1..]) as int) else ParseDigits(s)
  }

  lemma {:induction false} ParseDigitsOfDigits(n: nat)
    ensures ParseDigits(Digits(n)) == n
    decreases n
  {
    if n >= 10 {
      var prefix := Digits(n / 10);
      var s := prefix + [DigitChar(n % 10)];
      assert s[..|s| - 1] == prefix;
      ParseDigitsOfDigits(n / 10);
    }
  }

  /** Parsing undoes rendering: `Str` loses no information. */
  lemma StrRoundTrip(n: int)
    ensures (Str(n)[0] == '-' ==> AllDigits(Str(n)[1..])) && ParseInt(Str(n)) == n
  {
    if n < 0 {
      assert Str(n)[1..] == Digits(-n);
      ParseDigitsOfDigits(-n);
    } else {
      ParseDigitsOfDigits(n);
    }
  }

  /** Distinct integers render to distinct strings. */
  lemma StrInjective(a: int, b: int)
    ensures Str(a) == Str(b) <==> a == b
  {
    if Str(a) == Str(b) {
      StrRoundTrip(a);
      StrRoundTrip(b);
    }
  }
}

=== FILE: outcomes.dfy ===
/** Failure-carrying values used where the game raises or returns None. */
module Outcomes {

  /** A value that may be absent (Python's `None`). */
  datatype Option<+T> = None | Some(value: T)

  /** The result of a call that either returns a value or raises `error`. */
  datatype Result<+T, +E> = Ok(value: T) | Err(error: E)

  /** The result of a call made only for its effect: it completes or raises `error`. */
  datatype Outcome<+E> = Completed | Raised(error: E)
}

=== FILE: rects.dfy ===
/** The value types the game borrows from its graphics library: points, sizes and rectangles. */
module Rects {

  /** A pixel position, as carried by mouse events. */
  datatype Point = Point(x: int, y: int)

  /** The width and height of a drawable surface. */
  datatype Size = Size(width: int, height: int)

  /** An axis-aligned rectangle with integer top-left corner and extent. */
  datatype Rect = Rect(x: int, y: int, width: int, height: int) {

    function TopLeft(): Point {
      Point(x, y)
    }

    function Dimensions(): Size {
      Size(width, height)
    }
  }

  /** The rectangle of a surface of size `s` placed with its top-left corner at `p`. */
  function PlacedAt(p: Point, s: Size): Rect {
    Rect(p.x, p.y, s.width, s.height)
  }

  /** Rectangle containment of a point: half-open on both axes. */
  predicate CollidePoint(r: Rect, p: Point) {
    r.x <= p.x < r.x + r.width && r.y <= p.y < r.y + r.height
  }

  /** The far edges are outside the rectangle, the top-left corner is inside any non-empty one. */
  lemma CollidePointEdges(r: Rect, p: Point)
    ensures !CollidePoint(r, Point(r.x + r.width, p.y))
    ensures !CollidePoint(r, Point(p.x, r.y + r.height))
    ensures CollidePoint(r, r.TopLeft()) <==> r.width > 0 && r.height > 0
  {
  }
}

=== FILE: round.dfy ===
/**
 * The timed "find Baldo" round: field generation, first-hit click resolution and the
 * per-frame countdown.
 */
module PlayRound {
  import opened Outcomes
  import opened Rects
  import opened Events
  import opened Numerals
  import opened Entities
  import opened Widgets

  const StartTime: real := 30.0
  const JamBonus: real := 10.0
  const MarmeladeBonus: real := 15.0
  const WaldoPenalty: real := 5.0

  /** Bounds of the random Waldo count and the fixed number of jam jars (`range(3, 8)`). */
  const MinWaldos: int := 120
  const MaxWaldos: int := 1800
  const JamJars: nat := 5

  /** Bounds of a random placement: x in 0..950, y in 3..539. */
  const MaxX: int := 950
  const MinY: int := 3
  const MaxY: int := 539

  const GreetingMessage: string := "Sup"
  const WinMessage: string := "WELL DONE, U FOUND BALDO"
  const JamMessage: string := "+10 seconds"
  const MarmeladeMessage: string := "+15 seconds"
  const WaldoMessage: string := "One less Waldo"
  const HintMessage: string := "The aim is to find Baldo, Not Waldo"

  /**
   * The state of one round. `message` is the status text, which is stored but not drawn;
   * `bar` and `timeLabel` are the countdown display.
   */
  datatype Round = Round(
    time: real,
    win: bool,
    entities: seq<Entity>,
    message: string,
    bar: ProgressBar,
    timeLabel: Label)

  /**
   * A freshly constructed round, before it is started: full time, no entities, a full bar of
   * maximum 30 at (10, 10) sized 200x20, and the "30" label just right of it.
   * `labelSize` is the size of the rendered label text.
   */
  function NewRound(labelSize: Size): (r: Round)
    ensures r.time == StartTime && !r.win && r.entities == []
    ensures r.bar.current == r.bar.maxValue == 30.0 && r.bar.rect == Rect(10, 10, 200, 20)
    ensures Consistent(r.timeLabel) && r.timeLabel.text == Str(30)
    ensures r.timeLabel.rect.TopLeft() == Point(r.bar.rect.x + r.bar.rect.width + 5, r.bar.rect.y)
  {
    var bar := NewProgressBar(10, 10, 200, 20, 30.0);
    var display := NewLabel(bar.rect.x + bar.rect.width + 5, bar.rect.y, "30", labelSize, None, None);
    Round(StartTime, false, [], GreetingMessage, bar, display)
  }

  // ---------------------------------------------------------------------------
  // Field generation
  // ---------------------------------------------------------------------------

  /** The random draws of one generation: the Waldo count, one position per entity, one look per Waldo. */
  datatype Rolls = Rolls(waldoCount: int, positions: seq<Point>, looks: seq<Look>)

  predicate ValidPos(p: Point) {
    0 <= p.x <= MaxX && MinY <= p.y <= MaxY
  }

  /** What the random number generator can produce for one generation. */
  predicate ValidRolls(r: Rolls) {
    && MinWaldos <= r.waldoCount <= MaxWaldos
    && |r.positions| == r.waldoCount + JamJars + 2
    && |r.looks| == r.waldoCount
    && (forall i :: 0 <= i < |r.positions| ==> ValidPos(r.positions[i]))
    && (forall i :: 0 <= i < |r.looks| ==> ValidLook(r.looks[i]))
  }

  /** One entity construction of the generation. */
  datatype Spawn =
    | SpawnWaldo(pos: Point, look: Look)
    | SpawnJar(pos: Point, jarType: EntityType)
    | SpawnBaldo(pos: Point)

  /** The kind of entity a spawn builds. */
  function SpawnKind(s: Spawn): Kind {
    match s
    case SpawnWaldo(_, _) => WaldoKind
    case SpawnJar(_, t) => JarKind(t)
    case SpawnBaldo(_) => BaldoKind
  }

  predicate ValidSpawn(s: Spawn) {
    s.SpawnWaldo? ==> ValidLook(s.look)
  }

  /** The constructions in the order the source performs them: Waldos, 5 jam jars, a marmelade jar, Baldo. */
  function Plan(r: Rolls): (plan: seq<Spawn>)
    requires ValidRolls(r)
    ensures |plan| == r.waldoCount + JamJars + 2
    ensures forall i :: 0 <= i < |plan| ==> plan[i].pos == r.positions[i] && ValidSpawn(plan[i])
  {
    var n := r.waldoCount;
    seq(n + JamJars + 2, i requires 0 <= i < n + JamJars + 2 =>
      if i < n then SpawnWaldo(r.positions[i], r.looks[i])
      else if i < n + JamJars then SpawnJar(r.positions[i], Jam)
      else if i == n + JamJars then SpawnJar(r.positions[i], Marmelade)
      else SpawnBaldo(r.positions[i]))
  }

  function Build(s: Spawn, assets: Assets): (r: Result<Entity, LoadError>)
    requires ValidSpawn(s)
    ensures r.Ok? ==> r.value.kind == SpawnKind(s) && r.value.rect.TopLeft() == s.pos
  {
    match s
    case SpawnWaldo(p, l) => NewWaldo(p.x, p.y, l, assets)
    case SpawnJar(p, t) => NewJar(p.x, p.y, t, assets)
    case SpawnBaldo(p) => NewBaldo(p.x, p.y, assets)
  }

  /** Every image the generation may need can be loaded. */
  predicate CompleteAssets(assets: Assets) {
    && BaldoImage in assets && JamImage in assets && MarmeladeImage in assets
    && (forall i :: 1 <= i <= 6 ==> WaldoBase(i) in assets)
    && (forall i :: 1 <= i <= 9 ==> WaldoMask(i) in assets)
  }

  /**
   * Runs the constructions in order, appending each entity; the first load error stops the
   * run and is raised, leaving the entities already built in place.
   */
  function BuildAll(plan: seq<Spawn>, assets: Assets): (r: (seq<Entity>, Outcome<LoadError>))
    requires forall i :: 0 <= i < |plan| ==> ValidSpawn(plan[i])
    ensures |r.0| <= |plan|
    ensures forall i :: 0 <= i < |r.0| ==> r.0[i].kind == SpawnKind(plan[i]) && r.0[i].rect.TopLeft() == plan[i].pos
    ensures r.1.Completed? <==> |r.0| == |plan|
    ensures r.1.Raised? ==> Build(plan[|r.0|], assets) == Err(r.1.error)
    ensures CompleteAssets(assets) ==> r.1.Completed?
    decreases |plan|
  {
    if |plan| == 0 then ([], Completed)
    else
      match Build(plan[0], assets)
      case Err(e) => ([], Raised(e))
      case Ok(e) =>
        var rest := BuildAll(plan[1..], assets);
        ([e] + rest.0, rest.1)
  }

  /**
   * Starting the round: full time, the entity list cleared and refilled. A load error ends the
   * start early and is raised, with the entities built so far kept.
   */
  function Start(s: Round, rolls: Rolls, assets: Assets): (r: (Round, Outcome<LoadError>))
    requires ValidRolls(rolls)
    ensures r.0.time == StartTime && r.0.win == s.win
    ensures r.0.bar == s.bar && r.0.timeLabel == s.timeLabel && r.0.message == s.message
    ensures |r.0.entities| <= rolls.waldoCount + JamJars + 2
    ensures forall i :: 0 <= i < |r.0.entities| ==> r.0.entities[i].rect.TopLeft() == rolls.positions[i]
    ensures r.1.Completed? <==> |r.0.entities| == rolls.waldoCount + JamJars + 2
  {
    var (entities, outcome) := BuildAll(Plan(rolls), assets);
    (s.(time := StartTime, entities := entities), outcome)
  }

  /** The composition of a completely generated field. */
  predicate WellGenerated(es: seq<Entity>, waldoCount: int) {
    && waldoCount >= 0
    && |es| == waldoCount + JamJars + 2
    && (forall i :: 0 <= i < waldoCount ==> es[i].kind == WaldoKind && es[i].mask.Some?)
    && (forall i :: waldoCount <= i < waldoCount + JamJars ==> es[i].kind == JarKind(Jam))
    && es[waldoCount + JamJars].kind == JarKind(Marmelade)
    && es[|es| - 1].kind == BaldoKind
  }

  /**
   * With every image available, a started round holds its Waldos, then exactly five jam jars,
   * one marmelade jar and finally Baldo, each at its drawn position. The Waldo count range
   * 120..1800 and the position bounds are assumptions about the random draws (`ValidRolls`),
   * carried through to the field, not results of the generation.
   */
  lemma StartGeneratesField(s: Round, rolls: Rolls, assets: Assets)
    requires ValidRolls(rolls) && CompleteAssets(assets)
    ensures Start(s, rolls, assets).1.Completed?
    ensures WellGenerated(Start(s, rolls, assets).0.entities, rolls.waldoCount)
    ensures MinWaldos <= rolls.waldoCount <= MaxWaldos
    ensures forall i :: 0 <= i < |Start(s, rolls, assets).0.entities| ==>
      ValidPos(Start(s, rolls, assets).0.entities[i].rect.TopLeft())
  {
    var plan := Plan(rolls);
    var (es, outcome) := BuildAll(plan, assets);
    forall i | 0 <= i < rolls.waldoCount
      ensures es[i].kind == WaldoKind && es[i].mask.Some?
    {
      assert plan[i] == SpawnWaldo(rolls.positions[i], rolls.looks[i]);
      BuildAllElement(plan, assets, i);
    }
  }

  /** The i-th entity of a run is exactly the i-th construction's result. */
  lemma {:induction false} BuildAllElement(plan: seq<Spawn>, assets: Assets, i: nat)
    requires forall j :: 0 <= j < |plan| ==> ValidSpawn(plan[j])
    requires i < |BuildAll(plan, assets).0|
    ensures Build(plan[i], assets) == Ok(BuildAll(plan, assets).0[i])
    decreases i
  {
    if i > 0 {
      BuildAllElement(plan[1..], assets, i - 1);
    }
  }

  /** Exactly one Baldo: the last entity of a completely generated field. */
  lemma WellGeneratedHasOneBaldo(es: seq<Entity>, waldoCount: int)
    requires waldoCount >= 0 && WellGenerated(es, waldoCount)
    ensures CountBaldos(es) == 1
    ensures forall i :: 0 <= i < |es| && es[i].kind == BaldoKind ==> i == |es| - 1
  {
    var last := |es| - 1;
    assert es == es[..last] + [es[last]];
    CountBaldosAppend(es[..last], [es[last]]);
    NoBaldosCounted(es[..last]);
  }

  // ---------------------------------------------------------------------------
  // Click resolution
  // ---------------------------------------------------------------------------

  /** The number of Baldo entities in a list. */
  function CountBaldos(es: seq<Entity>): nat
    decreases |es|
  {
    if |es| == 0 then 0
    else (if es[|es| - 1].kind == BaldoKind then 1 else 0) + CountBaldos(es[..|es| - 1])
  }

  lemma {:induction false} CountBaldosAppend(a: seq<Entity>, b: seq<Entity>)
    ensures CountBaldos(a + b) == CountBaldos(a) + CountBaldos(b)
    decreases |b|
  {
    var ab := a + b;
    if |b| == 0 {
      assert ab == a;
    } else {
      assert ab[|ab| - 1] == b[|b| - 1];
      assert ab[..|ab| - 1] == a + b[..|b| - 1];
      CountBaldosAppend(a, b[..|b| - 1]);
    }
  }

  lemma {:induction false} NoBaldosCounted(es: seq<Entity>)
    requires forall i :: 0 <= i < |es| ==> es[i].kind != BaldoKind
    ensures CountBaldos(es) == 0
    decreases |es|
  {
    if |es| > 0 {
      NoBaldosCounted(es[..|es| - 1]);
    }
  }

  /** `i` is the first entity, in list order, that reports a hit for `ev`. */
  predicate IsFirstHit(es: seq<Entity>, ev: Event, i: int) {
    && 0 <= i < |es|
    && OnClick(es[i], ev).Some?
    && forall j :: 0 <= j < i ==> OnClick(es[j], ev).None?
  }

  /** The scan over the entity list: the index of the first entity that reports a hit. */
  function FirstHit(es: seq<Entity>, ev: Event): (r: Option<nat>)
    ensures r.Some? ==> IsFirstHit(es, ev, r.value)
    ensures r.None? ==> forall j :: 0 <= j < |es| ==> OnClick(es[j], ev).None?
    decreases |es|
  {
    if |es| == 0 then None
    else if OnClick(es[0], ev).Some? then Some(0)
    else
      match FirstHit(es[1..], ev)
      case None => None
      case Some(k) => Some(k + 1)
  }

  /** There is only one first hit. */
  lemma FirstHitUnique(es: seq<Entity>, ev: Event, i: int)
    requires IsFirstHit(es, ev, i)
    ensures FirstHit(es, ev) == Some(i)
  {
    assert OnClick(es[i], ev).Some?;
  }

  /** The list without its i-th element, all others in their original order. */
  function RemoveAt(es: seq<Entity>, i: nat): (r: seq<Entity>)
    requires i < |es|
    ensures |r| == |es| - 1
    ensures forall k :: 0 <= k < i ==> r[k] == es[k]
    ensures forall k :: i <= k < |r| ==> r[k] == es[k + 1]
    ensures multiset(r) + multiset{es[i]} == multiset(es)
  {
    assert es == es[..i] + [es[i]] + es[i + 1..];
    es[..i] + es[i + 1..]
  }

  /** The time a pickup or decoy adds to the clock. */
  function TimeChange(t: EntityType): real {
    match t
    case Baldo => 0.0
    case Jam => JamBonus
    case Marmelade => MarmeladeBonus
    case Waldo => -WaldoPenalty
  }

  /**
   * A mouse press: the first entity hit decides. Baldo wins the round (time 0, nothing removed);
   * a jar or Waldo changes the time and is removed; a press on nothing only sets the hint.
   * Any other event is ignored.
   */
  function HandleEvent(s: Round, ev: Event): (r: Round)
    ensures !ev.MouseDown? ==> r == s
    ensures r.bar == s.bar && r.timeLabel == s.timeLabel
    ensures |r.entities| <= |s.entities|
  {
    if !ev.MouseDown? then s
    else
      match FirstHit(s.entities, ev)
      case None => s.(message := HintMessage)
      case Some(i) =>
        match FixedOutcome(s.entities[i].kind)
        case Baldo => s.(message := WinMessage, time := 0.0, win := true)
        case Jam => s.(message := JamMessage, time := s.time + JamBonus, entities := RemoveAt(s.entities, i))
        case Marmelade =>
          s.(message := MarmeladeMessage, time := s.time + MarmeladeBonus, entities := RemoveAt(s.entities, i))
        case Waldo => s.(message := WaldoMessage, time := s.time - WaldoPenalty, entities := RemoveAt(s.entities, i))
  }

  /** A press that hits no entity sets the hint and changes nothing else. */
  lemma HandleMiss(s: Round, ev: Event)
    requires ev.MouseDown?
    requires forall j :: 0 <= j < |s.entities| ==> !CollidePoint(s.entities[j].rect, ev.pos)
    ensures HandleEvent(s, ev) == s.(message := HintMessage)
  {
    assert forall j :: 0 <= j < |s.entities| ==> OnClick(s.entities[j], ev).None?;
  }

  /** Hitting Baldo first: time forced to exactly 0, the round won, the entity list untouched. */
  lemma HandleBaldoHit(s: Round, ev: Event, i: int)
    requires IsFirstHit(s.entities, ev, i) && OnClick(s.entities[i], ev) == Some(Baldo)
    ensures HandleEvent(s, ev).time == 0.0 && HandleEvent(s, ev).win
    ensures HandleEvent(s, ev).entities == s.entities
    ensures HandleEvent(s, ev).message == WinMessage
  {
    FirstHitUnique(s.entities, ev, i);
  }

  /**
   * Hitting a jar or a Waldo first: the time moves by +10, +15 or -5, exactly that entity is
   * removed, the others keep their order, and the win flag is unchanged.
   */
  lemma HandleConsumableHit(s: Round, ev: Event, i: int)
    requires IsFirstHit(s.entities, ev, i) && OnClick(s.entities[i], ev) != Some(Baldo)
    ensures HandleEvent(s, ev).time == s.time + TimeChange(OnClick(s.entities[i], ev).value)
    ensures HandleEvent(s, ev).entities == RemoveAt(s.entities, i)
    ensures HandleEvent(s, ev).win == s.win
  {
    FirstHitUnique(s.entities, ev, i);
  }

  /** Entities behind the first hit play no part: only one outcome is applied per press. */
  lemma {:induction false} OnlyPrefixMatters(s: Round, ev: Event, i: int, tail: seq<Entity>)
    requires IsFirstHit(s.entities, ev, i)
    ensures FirstHit(s.entities[..i + 1] + tail, ev) == Some(i)
    ensures FirstHit(s.entities, ev) == Some(i)
  {
    FirstHitUnique(s.entities, ev, i);
    var es := s.entities[..i + 1] + tail;
    assert IsFirstHit(es, ev, i) by {
      forall j | 0 <= j <= i
        ensures es[j] == s.entities[j]
      {
      }
    }
    FirstHitUnique(es, ev, i);
  }

  /** Clicks never remove Baldo entities: their number is the same before and after. */
  lemma HandleEventKeepsBaldos(s: Round, ev: Event)
    ensures CountBaldos(HandleEvent(s, ev).entities) == CountBaldos(s.entities)
  {
    if ev.MouseDown? && FirstHit(s.entities, ev).Some? {
      var i := FirstHit(s.entities, ev).value;
      var es := s.entities;
      if FixedOutcome(es[i].kind) != Baldo {
        assert es[i].kind != BaldoKind;
        assert es == es[..i] + [es[i]] + es[i + 1..];
        CountBaldosAppend(es[..i] + [es[i]], es[i + 1..]);
        CountBaldosAppend(es[..i], [es[i]]);
        CountBaldosAppend(es[..i], es[i + 1..]);
      }
    }
  }

  /** Once won, a round stays won whatever is clicked; only a press whose first hit is Baldo wins it. */
  lemma HandleEventKeepsWin(s: Round, ev: Event)
    ensures s.win ==> HandleEvent(s, ev).win
    ensures HandleEvent(s, ev).win ==> s.win || HandleEvent(s, ev).time == 0.0
    ensures !s.win && HandleEvent(s, ev).win ==>
      && ev.MouseDown? && FirstHit(s.entities, ev).Some?
      && OnClick(s.entities[FirstHit(s.entities, ev).value], ev) == Some(Baldo)
  {
  }

  // ---------------------------------------------------------------------------
  // Per-frame update
  // ---------------------------------------------------------------------------

  /** What a frame asks of the scene machine. */
  datatype Verdict = Running | Won | Lost

  /**
   * One frame: once the time is used up the round ends in a win or a loss, with the state
   * untouched; otherwise the time drops by `dt` and the bar and label show the new time
   * (the label as the truncated whole number of seconds). `render` is the size of the
   * label's rendered text.
   */
  function Update(s: Round, dt: real, render: Size): (r: (Round, Verdict))
    ensures s.time <= 0.0 ==> r.0 == s && r.1 == (if s.win then Won else Lost)
    ensures s.time > 0.0 ==> r.1 == Running && r.0.time == s.time - dt
    ensures r.0.win == s.win && r.0.entities == s.entities && r.0.message == s.message
    ensures s.time > 0.0 ==> r.0.bar == SetValue(s.bar, s.time - dt)
    ensures s.time > 0.0 ==> r.0.timeLabel.text == Str(Trunc(s.time - dt))
    ensures Consistent(s.timeLabel) ==> Consistent(r.0.timeLabel)
  {
    if s.time <= 0.0 then (s, if s.win then Won else Lost)
    else
      var time := s.time - dt;
      var bar := SetValue(s.bar, time);
      var display := SetText(s.timeLabel, Str(Trunc(time)), render);
      (s.(time := time, bar := bar, timeLabel := display), Running)
  }

  /** `n` frames of `dt` each, stopping at the frame that ends the round. */
  function Run(s: Round, n: nat, dt: real, render: Size): (r: (Round, Verdict))
    decreases n
  {
    if n == 0 then (s, Running)
    else
      var (next, v) := Update(s, dt, render);
      if v == Running then Run(next, n - 1, dt, render) else (next, v)
  }

  /** The clock time `n` frames of `dt` each take off: `dt` added `n` times. */
  function Elapsed(n: nat, dt: real): (e: real)
    ensures dt >= 0.0 ==> e >= 0.0
    decreases n
  {
    if n == 0 then 0.0 else Elapsed(n - 1, dt) + dt
  }

  lemma {:induction false} ElapsedIsProduct(n: nat, dt: real)
    ensures Elapsed(n, dt) == n as real * dt
    decreases n
  {
    if n > 0 {
      ElapsedIsProduct(n - 1, dt);
      StepProduct((n - 1) as real, dt);
    }
  }

  /**
   * The countdown: as long as the time was positive before each of `n` frames, the round is
   * still running and exactly `n * dt` has been taken off the clock.
   */
  lemma {:induction false} Countdown(s: Round, n: nat, dt: real, render: Size)
    requires dt >= 0.0
    requires n == 0 || s.time - Elapsed(n - 1, dt) > 0.0
    ensures Run(s, n, dt, render).1 == Running
    ensures Run(s, n, dt, render).0.time == s.time - Elapsed(n, dt)
    ensures Run(s, n, dt, render).0.entities == s.entities
    decreases n
  {
    if n > 0 {
      assert s.time > 0.0;
      var u := Update(s, dt, render);
      assert u.1 == Running && u.0.time == s.time - dt;
      Countdown(u.0, n - 1, dt, render);
    }
  }

  lemma StepProduct(k: real, dt: real)
    ensures (k + 1.0) * dt == k * dt + dt
  {
  }

  /** A press on Baldo ends the round in a win on the very next frame. */
  lemma BaldoHitWinsNextFrame(s: Round, ev: Event, i: int, dt: real, render: Size)
    requires IsFirstHit(s.entities, ev, i) && OnClick(s.entities[i], ev) == Some(Baldo)
    ensures Update(HandleEvent(s, ev), dt, render).1 == Won
  {
    HandleBaldoHit(s, ev, i);
  }

  /** Time running out without Baldo found loses the round. */
  lemma TimeoutLoses(s: Round, dt: real, render: Size)
    requires s.time <= 0.0 && !s.win
    ensures Update(s, dt, render).1 == Lost
    ensures Update(s, dt, render).0.time == s.time
  {
  }
}

=== FILE: scenarios.dfy ===
/** Concrete rounds played through click handling and frames. */
module Scenarios {
  import opened Outcomes
  import opened Rects
  import opened Events
  import opened Entities
  import opened PlayRound

  /** A 32x32 image, which the default scale turns into a 64x64 hit rectangle. */
  const Small: Size := Size(32, 32)

  /**
   * A round holding only Baldo at (300, 300): a press at (332, 332) wins it and the next frame
   * ends it in a win; a press at (0, 0) hits nothing and leaves the clock alone.
   */
  lemma LoneBaldo(labelSize: Size, dt: real, render: Size)
    ensures var baldo := NewBaldo(300, 300, map[BaldoImage := Small]);
      && baldo.Ok? && baldo.value.rect == Rect(300, 300, 64, 64)
      && var s := NewRound(labelSize).(entities := [baldo.value]);
      && HandleEvent(s, MouseDown(Point(332, 332))).win
      && HandleEvent(s, MouseDown(Point(332, 332))).time == 0.0
      && Update(HandleEvent(s, MouseDown(Point(332, 332))), dt, render).1 == Won
      && HandleEvent(s, MouseDown(Point(0, 0))).time == s.time
      && HandleEvent(s, MouseDown(Point(0, 0))).entities == s.entities
  {
    var baldo := NewBaldo(300, 300, map[BaldoImage := Small]).value;
    var s := NewRound(labelSize).(entities := [baldo]);
    assert IsFirstHit(s.entities, MouseDown(Point(332, 332)), 0);
    HandleBaldoHit(s, MouseDown(Point(332, 332)), 0);
    HandleMiss(s, MouseDown(Point(0, 0)));
  }

  /**
   * A jam jar picked up with 5 seconds left brings the clock to 15 and disappears, so a
   * second press at the same point hits nothing.
   */
  lemma JamPickup(labelSize: Size)
    ensures var jar := NewJar(300, 300, Jam, map[JamImage := Small]);
      && jar.Ok?
      && var s := NewRound(labelSize).(time := 5.0, entities := [jar.value]);
      && var once := HandleEvent(s, MouseDown(Point(310, 310)));
      && once.time == 15.0 && once.entities == []
      && var twice := HandleEvent(once, MouseDown(Point(310, 310)));
      && twice.time == 15.0 && twice.message == HintMessage
  {
    var jar := NewJar(300, 300, Jam, map[JamImage := Small]).value;
    var s := NewRound(labelSize).(time := 5.0, entities := [jar]);
    var press := MouseDown(Point(310, 310));
    assert IsFirstHit(s.entities, press, 0);
    HandleConsumableHit(s, press, 0);
    var once := HandleEvent(s, press);
    HandleMiss(once, press);
  }
}

=== FILE: scenes.dfy ===
/**
 * The screens of the game and the manager that owns the single active one. A scene's event
 * and frame handlers return a request; the manager carries out a switch by stopping the old
 * scene, then constructing and starting the new one.
 */
module Scenes {
  import opened Outcomes
  import opened Rects
  import opened Events
  import opened Entities
  import opened Widgets
  import opened PlayRound

  datatype SceneTag = Menu | Learn | Credits | TestGame | Play | Win | Fail

  /** What a handler asks of the manager: nothing, a switch of scene, or a posted quit event. */
  datatype Request = Stay | SwitchTo(target: SceneTag) | PostQuit

  datatype SceneState =
    | MenuScene(play: Button<Request>, instruct: Button<Request>, credits: Button<Request>, quit: Button<Request>)
    | LearnScene
    | CreditsScene
    | TestGameScene
    | PlayScene(round: Round)
    | WinScene(playAgain: Button<Request>, toMenu: Button<Request>)
    | FailScene(tryAgain: Button<Request>, toMenu: Button<Request>, mockLine: int)

  /** A scene object: its running flag and its screen-specific state. */
  datatype Scene = Scene(running: bool, state: SceneState)

  function Tag(s: SceneState): SceneTag {
    match s
    case MenuScene(_, _, _, _) => Menu
    case LearnScene => Learn
    case CreditsScene => Credits
    case TestGameScene => TestGame
    case PlayScene(_) => Play
    case WinScene(_, _) => Win
    case FailScene(_, _, _) => Fail
  }

  /** The number of mocking lines the fail screen picks one from. */
  const MockLineCount: int := 16

  /**
   * Everything a switch needs from outside the model: loadable images, the rendered size of
   * the time label's text, and the random draws of the fail screen and of a new round.
   */
  datatype Env = Env(assets: Assets, labelSize: Size, rolls: Rolls, mockLine: int)

  predicate ValidEnv(env: Env) {
    ValidRolls(env.rolls) && 0 <= env.mockLine < MockLineCount
  }

  // ---------------------------------------------------------------------------
  // Layouts
  // ---------------------------------------------------------------------------

  const MenuButtonWidth: int := 320
  const MenuButtonHeight: int := 60
  const MenuButtonGap: int := 12

  /**
   * The menu's four buttons, centred horizontally and stacked from one button height above
   * the middle of the screen. Each stores the callback it was built with.
   */
  function NewMenu(screen: Size): (s: SceneState)
    ensures s.MenuScene?
    ensures s.instruct.rect.y == s.play.rect.y + MenuButtonHeight + MenuButtonGap
    ensures s.credits.rect.y == s.instruct.rect.y + MenuButtonHeight + MenuButtonGap
    ensures s.quit.rect.y == s.credits.rect.y + MenuButtonHeight + MenuButtonGap
    ensures s.play.rect.x == s.instruct.rect.x == s.credits.rect.x == s.quit.rect.x
    ensures s.play.rect.Dimensions() == s.instruct.rect.Dimensions() == s.credits.rect.Dimensions()
         == s.quit.rect.Dimensions() == Size(MenuButtonWidth, MenuButtonHeight)
  {
    var cx := (screen.width - MenuButtonWidth) / 2;
    var y0 := screen.height / 2 - MenuButtonHeight;
    var step := MenuButtonHeight + MenuButtonGap;
    MenuScene(
      Button(Rect(cx, y0, MenuButtonWidth, MenuButtonHeight), "Play", SwitchTo(TestGame)),
      Button(Rect(cx, y0 + step, MenuButtonWidth, MenuButtonHeight), "How to Play", SwitchTo(Learn)),
      Button(Rect(cx, y0 + 2 * step, MenuButtonWidth, MenuButtonHeight), "Credits", SwitchTo(Credits)),
      Button(Rect(cx, y0 + 3 * step, MenuButtonWidth, MenuButtonHeight), "Quit", PostQuit))
  }

  const ResultButtonWidth: int := 300
  const ResultButtonHeight: int := 60
  const ResultButtonGap: int := 15

  /** The two buttons of the win and fail screens, starting `offset` below the middle of the screen. */
  function ResultButtons(screen: Size, againText: string, offset: int): (r: (Button<Request>, Button<Request>))
    ensures r.0.callback == SwitchTo(Play) && r.1.callback == SwitchTo(Menu)
    ensures r.0.rect.y == screen.height / 2 + offset
    ensures r.1.rect.y == r.0.rect.y + ResultButtonHeight + ResultButtonGap
    ensures r.0.rect.Dimensions() == r.1.rect.Dimensions() == Size(ResultButtonWidth, ResultButtonHeight)
  {
    var cx := (screen.width - ResultButtonWidth) / 2;
    var y0 := screen.height / 2 + offset;
    (Button(Rect(cx, y0, ResultButtonWidth, ResultButtonHeight), againText, SwitchTo(Play)),
     Button(Rect(cx, y0 + ResultButtonHeight + ResultButtonGap, ResultButtonWidth, ResultButtonHeight),
            "Main Menu", SwitchTo(Menu)))
  }

  // ---------------------------------------------------------------------------
  // Lifecycle
  // ---------------------------------------------------------------------------

  /** Constructing a scene of the given kind; every new scene is running. */
  function Construct(tag: SceneTag, screen: Size, env: Env): (s: Scene)
    requires ValidEnv(env)
    ensures s.running && Tag(s.state) == tag
    ensures tag == Play ==> s.state.round == NewRound(env.labelSize)
    ensures tag == Fail ==> 0 <= s.state.mockLine < MockLineCount
  {
    var state :=
      match tag
      case Menu => NewMenu(screen)
      case Learn => LearnScene
      case Credits => CreditsScene
      case TestGame => TestGameScene
      case Play => PlayScene(NewRound(env.labelSize))
      case Win =>
        var (again, menu) := ResultButtons(screen, "Play Again", 20);
        WinScene(again, menu)
      case Fail =>
        var (again, menu) := ResultButtons(screen, "Try Again", 40);
        FailScene(again, menu, env.mockLine);
    Scene(true, state)
  }

  /** Starting a scene: only the play scene does anything, generating its field, which may raise. */
  function Start(s: Scene, env: Env): (r: (Scene, Outcome<LoadError>))
    requires ValidEnv(env)
    ensures r.0.running == s.running && Tag(r.0.state) == Tag(s.state)
    ensures !s.state.PlayScene? ==> r == (s, Completed)
    ensures s.state.PlayScene? ==> r.0.state.round == PlayRound.Start(s.state.round, env.rolls, env.assets).0
  {
    match s.state
    case PlayScene(round) =>
      var (started, outcome) := PlayRound.Start(round, env.rolls, env.assets);
      (s.(state := PlayScene(started)), outcome)
    case _ => (s, Completed)
  }

  /** Stopping a scene clears its running flag and nothing else. */
  function Stop(s: Scene): (r: Scene)
    ensures !r.running && r.state == s.state
  {
    s.(running := false)
  }

  /** The lifecycle calls the manager has made, in order. */
  datatype Lifecycle = Stopped(tag: SceneTag) | Constructed(tag: SceneTag) | Started(tag: SceneTag)

  /** The scene manager: the screen size, the active scene if any, and the lifecycle history. */
  datatype Manager = Manager(screen: Size, current: Option<Scene>, history: seq<Lifecycle>)

  /**
   * Switching scenes: the active scene, if any, is stopped and retired first; then a new scene
   * of the requested kind is constructed and started. A failure raised by the start is
   * swallowed: the manager always ends with the new scene active. The retired scene is
   * returned alongside the new manager.
   */
  function ChangeScene(m: Manager, target: SceneTag, env: Env): (r: (Manager, Option<Scene>))
    requires ValidEnv(env)
    ensures r.0.screen == m.screen
    ensures r.0.current.Some? && r.0.current.value.running && Tag(r.0.current.value.state) == target
    ensures m.current.None? ==> r.1.None?
    ensures m.current.Some? ==> r.1 == Some(Stop(m.current.value))
    ensures target == Play ==>
      r.0.current.value.state.round == PlayRound.Start(NewRound(env.labelSize), env.rolls, env.assets).0
    ensures r.0.history ==
      m.history + (if m.current.Some? then [Stopped(Tag(m.current.value.state))] else [])
      + [Constructed(target), Started(target)]
  {
    var retired := if m.current.Some? then Some(Stop(m.current.value)) else None;
    var stopped := if m.current.Some? then [Stopped(Tag(m.current.value.state))] else [];
    var made := Construct(target, m.screen, env);
    var (started, _) := Start(made, env);
    (Manager(m.screen, Some(started), m.history + stopped + [Constructed(target), Started(target)]), retired)
  }

  /**
   * A lifecycle history that ends with `cur` active: the first scene constructed and started,
   * then, for every switch, the previous active scene stopped before the next one is
   * constructed and started.
   */
  predicate History(h: seq<Lifecycle>, cur: SceneTag)
    decreases |h|
  {
    if |h| == 2 then h == [Constructed(cur), Started(cur)]
    else
      && |h| >= 5
      && h[|h| - 2] == Constructed(cur) && h[|h| - 1] == Started(cur)
      && h[|h| - 3].Stopped?
      && History(h[..|h| - 3], h[|h| - 3].tag)
  }

  /** How many constructed scenes have not been stopped. */
  function Live(h: seq<Lifecycle>): int
    decreases |h|
  {
    if |h| == 0 then 0
    else
      Live(h[..|h| - 1]) + (match h[|h| - 1] case Constructed(_) => 1 case Stopped(_) => -1 case Started(_) => 0)
  }

  /** In a valid history exactly one constructed scene has not been stopped. */
  lemma {:induction false} HistoryHasOneLiveScene(h: seq<Lifecycle>, cur: SceneTag)
    requires History(h, cur)
    ensures Live(h) == 1
    decreases |h|
  {
    if |h| == 2 {
      assert h[..1] == [Constructed(cur)] && h[..1][..0] == [];
      assert Live(h) == Live(h[..1]);
      assert Live(h[..1]) == Live(h[..1][..0]) + 1;
    } else {
      var n := |h|;
      HistoryHasOneLiveScene(h[..n - 3], h[n - 3].tag);
      assert h[..n - 1][..n - 2] == h[..n - 2] && h[..n - 1][n - 2] == h[n - 2];
      assert h[..n - 2][..n - 3] == h[..n - 3] && h[..n - 2][n - 3] == h[n - 3];
      assert Live(h) == Live(h[..n - 1]);
      assert Live(h[..n - 1]) == Live(h[..n - 2]) + 1;
      assert Live(h[..n - 2]) == Live(h[..n - 3]) - 1;
    }
  }

  /** The manager's invariant: a scene is active exactly when one was ever made, and it is the one running. */
  predicate ManagerInvariant(m: Manager) {
    && (m.current.None? <==> m.history == [])
    && (m.current.Some? ==> m.current.value.running && History(m.history, Tag(m.current.value.state)))
  }

  /** Every switch keeps the invariant: the old scene is stopped before the new one is made. */
  lemma ChangeScenePreservesInvariant(m: Manager, target: SceneTag, env: Env)
    requires ValidEnv(env) && ManagerInvariant(m)
    ensures ManagerInvariant(ChangeScene(m, target, env).0)
    ensures Live(ChangeScene(m, target, env).0.history) == 1
    ensures m.current.Some? ==>
      ChangeScene(m, target, env).0.history[..|m.history| + 1] == m.history + [Stopped(Tag(m.current.value.state))]
  {
    var h := ChangeScene(m, target, env).0.history;
    if m.current.Some? {
      assert h[..|h| - 3] == m.history;
    } else {
      assert h == [Constructed(target), Started(target)];
    }
    HistoryHasOneLiveScene(h, target);
  }

  /** The manager as the game creates it: the initial scene constructed and started. */
  function NewManager(screen: Size, initial: SceneTag, env: Env): (m: Manager)
    requires ValidEnv(env)
    ensures ManagerInvariant(m)
    ensures m.current.Some? && Tag(m.current.value.state) == initial
    ensures m.history == [Constructed(initial), Started(initial)]
  {
    ChangeScenePreservesInvariant(Manager(screen, None, []), initial, env);
    ChangeScene(Manager(screen, None, []), initial, env).0
  }

  // ---------------------------------------------------------------------------
  // Event handling
  // ---------------------------------------------------------------------------

  /**
   * The menu: Return switches to the test game; a press checks the buttons in the order play,
   * how-to-play, credits, quit, and the first one containing the point decides. The play
   * button leads to the play scene, whatever callback it stores.
   */
  function MenuHandleEvent(s: SceneState, ev: Event): (r: Request)
    requires s.MenuScene?
    ensures r == SwitchTo(TestGame) <==> ev.KeyDown? && ev.key == ReturnKey
    ensures r == SwitchTo(Play) <==> ev.MouseDown? && CollidePoint(s.play.rect, ev.pos)
    ensures r == SwitchTo(Learn) <==>
      ev.MouseDown? && !CollidePoint(s.play.rect, ev.pos) && CollidePoint(s.instruct.rect, ev.pos)
    ensures r == SwitchTo(Credits) <==>
      ev.MouseDown? && !CollidePoint(s.play.rect, ev.pos) && !CollidePoint(s.instruct.rect, ev.pos)
      && CollidePoint(s.credits.rect, ev.pos)
    ensures r == PostQuit <==>
      ev.MouseDown? && !CollidePoint(s.play.rect, ev.pos) && !CollidePoint(s.instruct.rect, ev.pos)
      && !CollidePoint(s.credits.rect, ev.pos) && CollidePoint(s.quit.rect, ev.pos)
    ensures r.SwitchTo? ==> r.target in {TestGame, Play, Learn, Credits}
  {
    if ev.KeyDown? && ev.key == ReturnKey then SwitchTo(TestGame)
    else if ev.MouseDown? then
      if ButtonOnClick(s.play, ev) then SwitchTo(Play)
      else if ButtonOnClick(s.instruct, ev) then SwitchTo(Learn)
      else if ButtonOnClick(s.credits, ev) then SwitchTo(Credits)
      else if ButtonOnClick(s.quit, ev) then PostQuit
      else Stay
    else Stay
  }

  /** The win and fail screens: a press on the first button plays again, else on the second goes to the menu. */
  function ResultHandleEvent(again: Button<Request>, menu: Button<Request>, ev: Event): (r: Request)
    ensures r == SwitchTo(Play) <==> ev.MouseDown? && CollidePoint(again.rect, ev.pos)
    ensures r == SwitchTo(Menu) <==>
      ev.MouseDown? && !CollidePoint(again.rect, ev.pos) && CollidePoint(menu.rect, ev.pos)
    ensures r == Stay || r == SwitchTo(Play) || r == SwitchTo(Menu)
  {
    if ev.MouseDown? then
      if ButtonOnClick(again, ev) then SwitchTo(Play)
      else if ButtonOnClick(menu, ev) then SwitchTo(Menu)
      else Stay
    else Stay
  }

  /** The credits screen: any key or press returns to the menu. */
  function CreditsHandleEvent(ev: Event): (r: Request)
    ensures r == SwitchTo(Menu) <==> ev.KeyDown? || ev.MouseDown?
    ensures r != SwitchTo(Menu) ==> r == Stay
  {
    if ev.KeyDown? || ev.MouseDown? then SwitchTo(Menu) else Stay
  }

  /** Dispatch of an event to the active scene: the updated scene and its request. */
  function HandleEvent(s: Scene, ev: Event): (r: (Scene, Request))
    ensures r.0.running == s.running && Tag(r.0.state) == Tag(s.state)
    ensures !s.state.PlayScene? ==> r.0 == s
    ensures s.state.PlayScene? ==> r.1 == Stay && r.0.state.round == PlayRound.HandleEvent(s.state.round, ev)
  {
    match s.state
    case MenuScene(_, _, _, _) => (s, MenuHandleEvent(s.state, ev))
    case LearnScene => (s, Stay)
    case CreditsScene => (s, CreditsHandleEvent(ev))
    case TestGameScene => (s, Stay)
    case PlayScene(round) => (s.(state := PlayScene(PlayRound.HandleEvent(round, ev))), Stay)
    case WinScene(again, menu) => (s, ResultHandleEvent(again, menu, ev))
    case FailScene(again, menu, _) => (s, ResultHandleEvent(again, menu, ev))
  }

  /** A frame of the active scene: only the play scene does anything, ending in a win or fail switch. */
  function Update(s: Scene, dt: real, render: Size): (r: (Scene, Request))
    ensures r.0.running == s.running && Tag(r.0.state) == Tag(s.state)
    ensures !s.state.PlayScene? ==> r == (s, Stay)
    ensures s.state.PlayScene? && s.state.round.time <= 0.0 ==>
      r.1 == SwitchTo(if s.state.round.win then Win else Fail)
    ensures s.state.PlayScene? && s.state.round.time > 0.0 ==> r.1 == Stay
  {
    match s.state
    case PlayScene(round) =>
      var (next, verdict) := PlayRound.Update(round, dt, render);
      var request := match verdict case Running => Stay case Won => SwitchTo(Win) case Lost => SwitchTo(Fail);
      (s.(state := PlayScene(next)), request)
    case _ => (s, Stay)
  }

  /** Carrying out a request on behalf of the active scene `s`; the flag says whether a quit was posted. */
  function Apply(m: Manager, s: Scene, req: Request, env: Env): (r: (Manager, bool))
    requires ValidEnv(env)
    ensures r.1 <==> req == PostQuit
    ensures req.SwitchTo? ==> r.0 == ChangeScene(m.(current := Some(s)), req.target, env).0
    ensures !req.SwitchTo? ==> r.0 == m.(current := Some(s))
  {
    match req
    case Stay => (m.(current := Some(s)), false)
    case PostQuit => (m.(current := Some(s)), true)
    case SwitchTo(t) => (ChangeScene(m.(current := Some(s)), t, env).0, false)
  }

  /**
   * What handling one event means for the main loop: nothing, a quit event posted by the scene,
   * or the loop's running flag cleared. Clearing the flag ends neither the batch of events
   * being delivered nor the frame that follows it; the loop only tests the flag before the
   * next batch.
   */
  datatype LoopEffect = KeepRunning | QuitPosted | ClearRunning

  /** A quit request or the Escape key, which the main loop keeps from the scenes. */
  predicate StopsLoop(ev: Event) {
    ev.QuitRequest? || ev == KeyDown(EscapeKey)
  }

  /**
   * The main loop handling one event: a quit request or the Escape key clears the loop's
   * running flag and never reaches the scene; any other event goes to the active scene, whose
   * request is carried out.
   */
  function Deliver(m: Manager, ev: Event, env: Env): (r: (Manager, LoopEffect))
    requires ValidEnv(env)
    ensures StopsLoop(ev) ==> r == (m, ClearRunning)
    ensures r.1 == ClearRunning <==> StopsLoop(ev)
    ensures m.current.None? ==> r.0 == m
    ensures r.1 == QuitPosted <==>
      !StopsLoop(ev) && m.current.Some? && HandleEvent(m.current.value, ev).1 == PostQuit
    ensures !StopsLoop(ev) && m.current.Some? && m.current.value.state.PlayScene? ==>
      var s := m.current.value;
      r == (m.(current := Some(s.(state := PlayScene(PlayRound.HandleEvent(s.state.round, ev))))), KeepRunning)
    ensures !StopsLoop(ev) && m.current.Some? && HandleEvent(m.current.value, ev).1.SwitchTo? ==>
      var target := HandleEvent(m.current.value, ev).1.target;
      && r.0.current.Some? && Tag(r.0.current.value.state) == target
      && r.0.history == m.history + [Stopped(Tag(m.current.value.state)), Constructed(target), Started(target)]
      && r.0 == ChangeScene(m.(current := Some(HandleEvent(m.current.value, ev).0)), target, env).0
    ensures (!StopsLoop(ev) && m.current.Some? && !m.current.value.state.PlayScene?
             && !HandleEvent(m.current.value, ev).1.SwitchTo?) ==> r.0 == m
  {
    if StopsLoop(ev) then (m, ClearRunning)
    else if m.current.None? then (m, KeepRunning)
    else
      var (s, req) := HandleEvent(m.current.value, ev);
      var (next, posted) := Apply(m, s, req, env);
      (next, if posted then QuitPosted else KeepRunning)
  }

  /**
   * The main loop running one frame of the active scene: a play round whose time is used up
   * switches to the win or fail screen by its win flag; a running round counts down in place;
   * every other screen is left as it is.
   */
  function Frame(m: Manager, dt: real, env: Env): (r: Manager)
    requires ValidEnv(env)
    ensures m.current.None? ==> r == m
    ensures m.current.Some? && !m.current.value.state.PlayScene? ==> r == m
    ensures m.current.Some? && m.current.value.state.PlayScene? && m.current.value.state.round.time <= 0.0 ==>
      var target := if m.current.value.state.round.win then Win else Fail;
      && r.current.Some? && Tag(r.current.value.state) == target
      && r.history == m.history + [Stopped(Play), Constructed(target), Started(target)]
      && r == ChangeScene(m, target, env).0
    ensures m.current.Some? && m.current.value.state.PlayScene? && m.current.value.state.round.time > 0.0 ==>
      && r.history == m.history && r.current.Some? && r.current.value.state.PlayScene?
      && r.current.value.state.round.time == m.current.value.state.round.time - dt
      && r.current.value.state.round.entities == m.current.value.state.round.entities
      && r.current.value.state.round.win == m.current.value.state.round.win
    ensures m.current.Some? && m.current.value.state.PlayScene? && m.current.value.state.round.time > 0.0 ==>
      var s := m.current.value;
      r == m.(current := Some(s.(state := PlayScene(PlayRound.Update(s.state.round, dt, env.labelSize).0))))
  {
    if m.current.None? then m
    else
      var (s, req) := Update(m.current.value, dt, env.labelSize);
      Apply(m, s, req, env).0
  }

  // ---------------------------------------------------------------------------
  // The scene machine
  // ---------------------------------------------------------------------------

  /**
   * The transitions of the scene machine. The instructions screen has none because its
   * handlers never switch. The test screen has none because its frames are modelled as doing
   * nothing: its update would switch to the menu once its timer runs out, but its first frame
   * fails before reaching that point.
   */
  predicate Edge(from: SceneTag, to: SceneTag) {
    match from
    case Menu => to == Play || to == Learn || to == Credits || to == TestGame
    case Credits => to == Menu
    case Play => to == Win || to == Fail
    case Win => to == Play || to == Menu
    case Fail => to == Play || to == Menu
    case Learn => false
    case TestGame => false
  }

  /** Every switch a handler or a frame requests is an edge of the machine. */
  lemma RequestsFollowEdges(s: Scene, ev: Event, dt: real, render: Size)
    ensures HandleEvent(s, ev).1.SwitchTo? ==> Edge(Tag(s.state), HandleEvent(s, ev).1.target)
    ensures Update(s, dt, render).1.SwitchTo? ==> Edge(Tag(s.state), Update(s, dt, render).1.target)
  {
  }

  /** Delivering an event or running a frame keeps the manager's invariant and moves only along edges. */
  lemma StepsKeepInvariant(m: Manager, ev: Event, dt: real, env: Env)
    requires ValidEnv(env) && ManagerInvariant(m) && m.current.Some?
    ensures ManagerInvariant(Deliver(m, ev, env).0) && ManagerInvariant(Frame(m, dt, env))
    ensures var next := Deliver(m, ev, env).0.current.value.state;
      Tag(next) == Tag(m.current.value.state) || Edge(Tag(m.current.value.state), Tag(next))
    ensures var next := Frame(m, dt, env).current.value.state;
      Tag(next) == Tag(m.current.value.state) || Edge(Tag(m.current.value.state), Tag(next))
  {
    var s := m.current.value;
    var (s1, req1) := HandleEvent(s, ev);
    var (s2, req2) := Update(s, dt, env.labelSize);
    RequestsFollowEdges(s, ev, dt, env.labelSize);
    if req1.SwitchTo? {
      ChangeScenePreservesInvariant(m.(current := Some(s1)), req1.target, env);
    }
    if req2.SwitchTo? {
      ChangeScenePreservesInvariant(m.(current := Some(s2)), req2.target, env);
    }
  }

  /** The menu buttons are stacked without overlap, so at most one of them contains any point. */
  lemma MenuButtonsDisjoint(screen: Size, p: Point)
    ensures var s := NewMenu(screen);
      (CollidePoint(s.play.rect, p) ==>
         !CollidePoint(s.instruct.rect, p) && !CollidePoint(s.credits.rect, p) && !CollidePoint(s.quit.rect, p))
      && (CollidePoint(s.instruct.rect, p) ==> !CollidePoint(s.credits.rect, p) && !CollidePoint(s.quit.rect, p))
      && (CollidePoint(s.credits.rect, p) ==> !CollidePoint(s.quit.rect, p))
  {
  }

  /**
   * Each menu button is reachable: a press at its top-left corner makes exactly its request.
   * The play button's request is the play scene, not the test game its stored callback names.
   */
  lemma MenuButtonsReachable(screen: Size)
    ensures var s := NewMenu(screen);
      && MenuHandleEvent(s, MouseDown(s.play.rect.TopLeft())) == SwitchTo(Play) != s.play.callback
      && MenuHandleEvent(s, MouseDown(s.instruct.rect.TopLeft())) == SwitchTo(Learn)
      && MenuHandleEvent(s, MouseDown(s.credits.rect.TopLeft())) == SwitchTo(Credits)
      && MenuHandleEvent(s, MouseDown(s.quit.rect.TopLeft())) == PostQuit
  {
  }

  /** Each win or fail button is reachable: a press at its top-left corner makes its request. */
  lemma ResultButtonsReachable(screen: Size, againText: string, offset: int)
    ensures var (again, menu) := ResultButtons(screen, againText, offset);
      && ResultHandleEvent(again, menu, MouseDown(again.rect.TopLeft())) == SwitchTo(Play)
      && ResultHandleEvent(again, menu, MouseDown(menu.rect.TopLeft())) == SwitchTo(Menu)
  {
  }

  /**
   * Every edge of the machine is taken by some event or frame: a switch from `from` to `to`
   * is requested for some input exactly when `Edge(from, to)` holds.
   */
  lemma EdgesAreRealised(screen: Size, from: SceneTag, to: SceneTag, env: Env)
    requires ValidEnv(env)
    ensures Edge(from, to) ==>
      var s := Construct(from, screen, env);
      (exists ev :: HandleEvent(s, ev).1 == SwitchTo(to))
      || (from == Play && exists r: Round, dt :: Update(s.(state := PlayScene(r)), dt, env.labelSize).1 == SwitchTo(to))
  {
    var s := Construct(from, screen, env);
    if Edge(from, to) {
      match from
      case Menu =>
        MenuButtonsReachable(screen);
        if to == TestGame {
          assert HandleEvent(s, KeyDown(ReturnKey)).1 == SwitchTo(TestGame);
        } else if to == Play {
          assert HandleEvent(s, MouseDown(s.state.play.rect.TopLeft())).1 == SwitchTo(Play);
        } else if to == Learn {
          assert HandleEvent(s, MouseDown(s.state.instruct.rect.TopLeft())).1 == SwitchTo(Learn);
        } else {
          assert HandleEvent(s, MouseDown(s.state.credits.rect.TopLeft())).1 == SwitchTo(Credits);
        }
      case Credits =>
        assert HandleEvent(s, KeyDown(ReturnKey)).1 == SwitchTo(Menu);
      case Play =>
        var r := NewRound(env.labelSize).(time := 0.0, win := to == Win);
        assert Update(s.(state := PlayScene(r)), 0.0, env.labelSize).1 == SwitchTo(to);
      case Win =>
        ResultButtonsReachable(screen, "Play Again", 20);
        if to == Play {
          assert HandleEvent(s, MouseDown(s.state.playAgain.rect.TopLeft())).1 == SwitchTo(Play);
        } else {
          assert HandleEvent(s, MouseDown(s.state.toMenu.rect.TopLeft())).1 == SwitchTo(Menu);
        }
      case Fail =>
        ResultButtonsReachable(screen, "Try Again", 40);
        if to == Play {
          assert HandleEvent(s, MouseDown(s.state.tryAgain.rect.TopLeft())).1 == SwitchTo(Play);
        } else {
          assert HandleEvent(s, MouseDown(s.state.toMenu.rect.TopLeft())).1 == SwitchTo(Menu);
        }
    }
  }

  /** The instructions screen never leaves: no event or frame makes it request a switch. */
  lemma LearnIsASink(s: Scene, ev: Event, dt: real, render: Size)
    requires s.state.LearnScene?
    ensures HandleEvent(s, ev).1 == Stay && Update(s, dt, render).1 == Stay
  {
  }
}

=== FILE: widgets.dfy ===
/** The menu and HUD widgets: clickable elements, buttons, text labels and a progress bar. */
module Widgets {
  import opened Outcomes
  import opened Rects
  import opened Events
  import opened Numerals

  /** Hit test shared by all widgets: containment of the event's position, whatever the event type. */
  function ElementOnClick(r: Rect, ev: Event): (hit: bool)
    requires ev.HasPos()
    ensures hit <==> r.x <= ev.pos.x < r.x + r.width && r.y <= ev.pos.y < r.y + r.height
  {
    CollidePoint(r, ev.pos)
  }

  /**
   * A button stores a callback but its click test never runs it: the callback is plain data
   * here, and it is up to each scene to decide what a click on the button does.
   */
  datatype Button<A> = Button(rect: Rect, text: string, callback: A)

  function ButtonOnClick<A>(b: Button<A>, ev: Event): (hit: bool)
    requires ev.HasPos()
    ensures hit <==> CollidePoint(b.rect, ev.pos)
  {
    ElementOnClick(b.rect, ev)
  }

  /** A rendered text image; `serial` tells separate render calls apart (object identity). */
  datatype TextSurface = TextSurface(text: string, size: Size, serial: nat)

  datatype Label = Label(rect: Rect, text: string, surface: TextSurface)

  /** The cached image shows the label's current text. */
  predicate Consistent(l: Label) {
    l.surface.text == l.text
  }

  /**
   * A label at (x, y): `rendered` is the size of `text` rendered in the label's font; a width
   * or height left out is taken from it, a given one is used as it is.
   */
  function NewLabel(x: int, y: int, text: string, rendered: Size, width: Option<int>, height: Option<int>)
    : (l: Label)
    ensures Consistent(l) && l.text == text
    ensures l.rect.TopLeft() == Point(x, y)
    ensures width.None? ==> l.rect.width == rendered.width
    ensures width.Some? ==> l.rect.width == width.value
    ensures height.None? ==> l.rect.height == rendered.height
    ensures height.Some? ==> l.rect.height == height.value
  {
    var w := if width.None? then rendered.width else width.value;
    var h := if height.None? then rendered.height else height.value;
    Label(Rect(x, y, w, h), text, TextSurface(text, rendered, 0))
  }

  /**
   * Changing a label's text: the same text is a no-op (no re-render); new text is stored and
   * rendered into a fresh image of size `rendered`. The rectangle is never resized.
   */
  function SetText(l: Label, text: string, rendered: Size): (r: Label)
    ensures text == l.text ==> r == l
    ensures text != l.text ==> r.text == text && r.surface.text == text && r.surface != l.surface
    ensures r.rect == l.rect
    ensures Consistent(l) ==> Consistent(r)
  {
    if text == l.text then l
    else l.(text := text, surface := TextSurface(text, rendered, l.surface.serial + 1))
  }

  /** Setting the same text twice re-renders at most once. */
  lemma SetTextIdempotent(l: Label, text: string, s1: Size, s2: Size)
    ensures SetText(SetText(l, text, s1), text, s2) == SetText(l, text, s1)
  {
  }

  datatype ProgressBar = ProgressBar(rect: Rect, maxValue: real, current: real)

  /** A fresh bar is full. */
  function NewProgressBar(x: int, y: int, width: int, height: int, maxValue: real): (b: ProgressBar)
    ensures b.current == b.maxValue == maxValue
    ensures b.rect == Rect(x, y, width, height)
  {
    ProgressBar(Rect(x, y, width, height), maxValue, maxValue)
  }

  /** The clamp `max(0, min(maxValue, v))`. */
  function Clamp(v: real, maxValue: real): real {
    var upper := if v < maxValue then v else maxValue;
    if upper > 0.0 then upper else 0.0
  }

  /** Setting the value clamps it into [0, maxValue]; a negative maximum clamps to 0. */
  function SetValue(b: ProgressBar, v: real): (r: ProgressBar)
    ensures r.rect == b.rect && r.maxValue == b.maxValue
    ensures r.current >= 0.0
    ensures b.maxValue >= 0.0 ==> r.current <= b.maxValue
    ensures 0.0 <= v <= b.maxValue ==> r.current == v
    ensures v > b.maxValue >= 0.0 ==> r.current == b.maxValue
    ensures v < 0.0 || b.maxValue < 0.0 ==> r.current == 0.0
  {
    b.(current := Clamp(v, b.maxValue))
  }

  lemma SetValueIdempotent(b: ProgressBar, v: real)
    ensures SetValue(SetValue(b, v), v) == SetValue(b, v)
  {
  }

  /** Setting a value already inside the range changes nothing: the clamp is a projection. */
  lemma SetValueFixesInRange(b: ProgressBar, v: real)
    ensures SetValue(SetValue(b, v), SetValue(b, v).current) == SetValue(b, v)
  {
  }

  /** The filled width drawn for the bar: `int(current / maxValue * width)`, 0 when maxValue <= 0. */
  function FillWidth(b: ProgressBar): (w: int)
    ensures b.maxValue <= 0.0 ==> w == 0
    ensures b.maxValue > 0.0 && 0.0 <= b.current <= b.maxValue && b.rect.width >= 0 ==> 0 <= w <= b.rect.width
    ensures b.maxValue > 0.0 && b.current == b.maxValue ==> w == b.rect.width
    ensures b.maxValue > 0.0 && b.current == 0.0 ==> w == 0
    ensures b.maxValue > 0.0 && b.current >= 0.0 && b.rect.width >= 0 ==>
      w as real <= b.current / b.maxValue * b.rect.width as real < w as real + 1.0
  {
    if b.maxValue > 0.0 then
      var fraction := b.current / b.maxValue;
      FractionBounds(b.current, b.maxValue, b.rect.width);
      Trunc(fraction * b.rect.width as real)
    else 0
  }

  lemma FractionBounds(current: real, maxValue: real, width: int)
    requires maxValue > 0.0
    ensures 0.0 <= current <= maxValue && width >= 0 ==>
      0.0 <= current / maxValue * width as real <= width as real
    ensures current == maxValue ==> current / maxValue * width as real == width as real
  {
    if 0.0 <= current <= maxValue && width >= 0 {
      var f := current / maxValue;
      assert 0.0 <= f <= 1.0;
      assert f * width as real <= 1.0 * width as real;
    }
  }

  /** A fuller bar is never drawn narrower. */
  lemma {:induction false} FillWidthMonotone(b: ProgressBar, c1: real, c2: real)
    requires b.maxValue > 0.0 && b.rect.width >= 0
    requires 0.0 <= c1 <= c2
    ensures FillWidth(b.(current := c1)) <= FillWidth(b.(current := c2))
  {
    var w := b.rect.width as real;
    var f1 := c1 / b.maxValue * w;
    var f2 := c2 / b.maxValue * w;
    assert c1 / b.maxValue <= c2 / b.maxValue;
    assert f1 <= f2;
    assert 0.0 <= f1;
  }
}
